=== FILE: README.md ===
# RTP audio interception layer — a Dafny model

This project models the native core of webrtc-java's RTP audio interception:

- the process-wide table that correlates a native peer connection with its
  Java `RTCPeerConnection` (`RegisterPeerConnection`,
  `UnregisterPeerConnection`, `GetJavaPeerConnection`);
- the per-connection `AudioInterceptor`, which has three parts:
  - the enable flag;
  - the add-only table of audio SSRCs, filled by `OnRtpConfig` and queried by `IsAudioSSRC`;
  - the owned JNI global reference to the Java peer, set by `SetPeerConnection` and released by the destructor;
- the two packet hooks `OnBeforeSendRtp` and `OnReceivedRtp`, which work in four steps:
  - they gate on the flag, the SSRC, a bound peer and the presence of the Java callback;
  - they call `interceptRTP` or `interceptIncomingRTP`;
  - they pass the packet through on an exception;
  - they drop it by truncating its payload on a null result, or apply a returned record;
- the marshaller `RTCRtpPacket::toJava` / `RTCRtpPacket::toNative` between the
  native `webrtc::RtpPacket` and the Java `RTCRtpPacket` record;
- the Java `InterceptorRegistry` list.

Everything is a value. The native packet is a datatype whose header fields
are bounded by their widths in the fixed header of section 5.1 of RFC 3550:
- PT has 7 bits;
- the sequence number has 16 bits;
- the timestamp and SSRC have 32 bits;
- there are at most 15 CSRCs.

The payload is its bytes plus an abstract buffer address. The Java side is a
parameter of the hooks (`PacketHooks.JavaRuntime`). It says whether the
peer's class has a callback of a given name, and what calling it with a
record yields: an exception (`Fault`), `null` (`NullResult`) or a record
(`Returned`). JNI global references are a multiset, so the interceptor's
ownership of its handle can be accounted for.

Files:
- `wrappers.dfy`: `Option` and `Result`.
- `rtp_types.dfy`: the native packet, field widths, and the C++ narrowing conversions.
- `packet_marshal.dfy`: `toJava` and `toNative`, both findings below, and the round trip.
- `connection_registry.dfy`: the native-to-Java peer connection table.
- `audio_interception.dfy`: the interceptor state, `SetPeerConnection`, `OnRtpConfig` and the destructor.
- `packet_hooks.dfy`: the two hooks and their policy lemmas.
- `interceptor_registry.dfy`: the Java interceptor list.

A returned payload is installed in one of two ways. A buffer other than the
packet's own is copied in. The view `toJava` made of the packet's own memory,
recognised by its address and capacity, is not copied: whatever the callback
wrote into it is already in the packet. Both ways leave the packet holding the
record's payload bytes, and `PacketMarshal.ToNative` states exactly that.

A malformed payload in a returned record is meant to count as no result. The
code has no such case, so that is recorded as a finding (below). The corrected
`ToNative` drops the packet in that case.

Both findings below have an as-written member and a corrected member. The
hooks (`PacketHooks.ApplyOutcome`, `PacketHooks.Intercept`,
`PacketHooks.OnBeforeSendRtp`, `PacketHooks.OnReceivedRtp`) and `ToJava` are
built from the corrected members. On the two inputs the findings name, they
therefore model the corrected program rather than the code as written. Those
inputs are a returned payload that is not a direct buffer, and a CSRC of 2^31
or more on a platform with a 32-bit `long`.

The three observers, `Lookup` (`GetJavaPeerConnection`), `IsAudioSsrc`
(`IsAudioSSRC`) and `GetInterceptors` (`getInterceptors`), carry no contract
of their own. Their meaning is fixed by the laws of the operations that
change what they observe: `Register`, `Unregister` and
`UntouchedKeyKeepsLookup` for the lookup; `OnRtpConfig`, `AudioIffConfigured`
and `RunClassifies` for the SSRC test; `SnapshotIsIndependent` for the
snapshot.

## Model

| member | source | states |
|---|---|---|
| RtpTypes.TruncatePayload | webrtc-jni/src/main/cpp/src/api/AudioInterceptor.cpp:116-120 | dropping a packet empties its payload, keeps its buffer, and changes nothing else in the packet |
| RtpTypes.ToU16 | webrtc-jni/src/main/cpp/src/api/RTCRtpPacket.cpp:95 | a Java `int` sequence number is reduced modulo 2^16 and kept unchanged when already in range |
| RtpTypes.ToU32 | webrtc-jni/src/main/cpp/src/api/RTCRtpPacket.cpp:96 | a Java `long` timestamp is reduced modulo 2^32 and kept unchanged when already in range |
| RtpTypes.ToPayloadType | webrtc-jni/src/main/cpp/src/api/RTCRtpPacket.cpp:94 | the 8-bit C++ conversion followed by the 7-bit PT field amounts to reducing the Java `int` modulo 128; a value already in 0..127 is unchanged |
| PacketMarshal.WidenCsrc | webrtc-jni/src/main/cpp/src/api/RTCRtpPacket.cpp:64-68 | a CSRC widened to a Java `long` keeps its value: it lies in 0..2^32-1 and narrows back to the same CSRC |
| PacketMarshal.ToJava | webrtc-jni/src/main/cpp/src/api/RTCRtpPacket.cpp:53-82 | the record carries PT, sequence number, timestamp and SSRC unchanged, and the CSRCs in order with equal length, each with its value unchanged; extensions are empty; the payload is a direct view at the packet's own address with the packet's bytes |
| PacketMarshal.WriteHeader | webrtc-jni/src/main/cpp/src/api/RTCRtpPacket.cpp:94-97 | only PT, sequence number and timestamp are written, each narrowed to its native width; everything else in the packet is as before |
| PacketMarshal.ToNativeAsWritten | webrtc-jni/src/main/cpp/src/api/RTCRtpPacket.cpp:84-110 | the code as written reaches an undefined `SetPayload` exactly when the record's payload is not a direct buffer |
| PacketMarshal.ToNative | webrtc-jni/src/main/cpp/src/api/RTCRtpPacket.cpp:84-110 | SSRC, CSRCs, marker and buffer address are never changed; for a direct payload, PT, sequence number and timestamp take the record's narrowed values; for a direct payload the packet's payload bytes become exactly the record's bytes, whether copied from another buffer or already written into the packet's own view |
| PacketMarshal.ToNativeAgreesWithCodeOnDirectBuffers | webrtc-jni/src/main/cpp/src/api/RTCRtpPacket.cpp:99-109 | on every record with a direct payload, the corrected `toNative` is the code as written |
| PacketMarshal.HeapBufferPayloadReachesNullSetPayload | webrtc-jni/src/main/cpp/src/api/RTCRtpPacket.cpp:99-108 | a returned record whose payload is a heap buffer makes the code call `SetPayload` with a null address and length -1 |
| PacketMarshal.ToNativeInstallsRecordPayload | webrtc-jni/src/main/cpp/src/api/RTCRtpPacket.cpp:103-109 | whichever branch line 107 takes, any direct payload, including the packet's own view edited in place, ends up as the packet's payload bytes; the packet's own view keeps the packet's buffer |
| PacketMarshal.ToNativeOfToJavaIsIdentity | webrtc-jni/src/main/cpp/src/api/RTCRtpPacket.cpp:53-110 | round trip: applying a packet's own unmodified record leaves the packet unchanged |
| PacketMarshal.ToJavaHeaderIsLossless | webrtc-jni/src/main/cpp/src/api/RTCRtpPacket.cpp:59-61 | the Java header's PT, sequence number and timestamp, written back onto any packet, reproduce the original values |
| PacketMarshal.ToNativeIgnoresSsrcAndCsrcs | webrtc-jni/src/main/cpp/src/api/RTCRtpPacket.cpp:94-97 | whatever SSRC and CSRC list the returned header holds, the result of `toNative` is the same |
| PacketMarshal.ToNativeIsIdempotent | webrtc-jni/src/main/cpp/src/api/RTCRtpPacket.cpp:84-110 | applying the same record twice has the effect of applying it once |
| PacketMarshal.WidenCsrcAsWritten | webrtc-jni/src/main/cpp/src/api/RTCRtpPacket.cpp:66 | `static_cast<long>` agrees with the lossless widening where `long` has 64 bits; where `long` has 32 bits the result is the signed 32-bit value, negative exactly for CSRCs of 2^31 or more; it is always congruent to the CSRC modulo 2^32 |
| PacketMarshal.CsrcWrapsNegativeOnLLP64 | webrtc-jni/src/main/cpp/src/api/RTCRtpPacket.cpp:66 | with a 32-bit `long`, CSRC 0x80000000 reaches Java as -2147483648 instead of 2147483648 |
| ConnectionRegistry.UnregisteredKeyIsNull | webrtc-jni/src/main/cpp/src/api/AudioInterceptor.cpp:17-36 | starting from the empty table, a key that no operation registers is looked up as null |
| ConnectionRegistry.Register | webrtc-jni/src/main/cpp/src/api/AudioInterceptor.cpp:19-22 | after registering, `GetJavaPeerConnection` (`Lookup`) of the key yields the given reference (null included); every other key's lookup is unchanged; the key set gains the key |
| ConnectionRegistry.Unregister | webrtc-jni/src/main/cpp/src/api/AudioInterceptor.cpp:24-27 | after unregistering, `GetJavaPeerConnection` (`Lookup`) of the key yields null; every other key's lookup is unchanged; the key set loses the key |
| ConnectionRegistry.RegisterOverwrites | webrtc-jni/src/main/cpp/src/api/AudioInterceptor.cpp:19-22 | registering a key twice is the same as registering only the later value |
| ConnectionRegistry.UnregisterUndoesFreshRegister | webrtc-jni/src/main/cpp/src/api/AudioInterceptor.cpp:19-27 | unregistering a key just registered for the first time restores the table exactly |
| ConnectionRegistry.UntouchedKeyKeepsLookup | webrtc-jni/src/main/cpp/src/api/AudioInterceptor.cpp:19-36 | after any series of registrations and removals of other keys, a key's lookup is what it was |
| ConnectionRegistry.NeverRegisteredIsNull | webrtc-jni/src/main/cpp/src/api/AudioInterceptor.cpp:29-36 | a key that no operation registers is looked up as null, if it was null before |
| AudioInterception.NewAudioInterceptor | webrtc-jni/src/main/cpp/src/api/AudioInterceptor.cpp:47-48 | a new interceptor has the given enable flag, no peer bound, and no SSRC classified as audio |
| AudioInterception.SetPeerConnection | webrtc-jni/src/main/cpp/src/api/AudioInterceptor.cpp:57-63 | given that the current handle is a live global reference, the handle becomes the new reference (none for null); the previous reference is released and the new one is held, and nothing else in the global references changes; flag and table are unchanged |
| AudioInterception.SetPeerConnectionKeepsOneHandle | webrtc-jni/src/main/cpp/src/api/AudioInterceptor.cpp:57-63 | after any series of bindings the interceptor holds a reference to the last peer bound and nothing else (none when that was null), and all other global references are as before |
| AudioInterception.SetAllKeepsClassification | webrtc-jni/src/main/cpp/src/api/AudioInterceptor.cpp:57-63 | binding peers changes neither the SSRC table nor the enable flag |
| AudioInterception.Destroy | webrtc-jni/src/main/cpp/src/api/AudioInterceptor.cpp:50-55 | destruction releases exactly the held reference, if any |
| AudioInterception.AudioIffConfigured | webrtc-jni/src/main/cpp/src/api/AudioInterceptor.cpp:65-80 | for an interceptor fresh from the factory, `IsAudioSSRC` holds exactly for the SSRCs some delivered configuration listed |
| AudioInterception.OnRtpConfig | webrtc-jni/src/main/cpp/src/api/AudioInterceptor.cpp:65-80 | afterwards `IsAudioSSRC` holds for an SSRC if and only if it was audio before or the configuration lists it; flag and handle are unchanged; the result is the reference classification `Classified` |
| AudioInterception.ClassifiedAllIsUnion | webrtc-jni/src/main/cpp/src/api/AudioInterceptor.cpp:65-80 | after a series of configurations an SSRC is audio if and only if it was audio before or some configuration listed it, so nothing is ever unclassified |
| AudioInterception.Run | webrtc-jni/src/main/cpp/src/api/AudioInterceptor.cpp:57-70 | through any interleaving of configurations and peer bindings the interceptor's handle stays a live global reference and the enable flag never changes |
| AudioInterception.RunClassifies | webrtc-jni/src/main/cpp/src/api/AudioInterceptor.cpp:57-80 | through any interleaving of configurations and peer bindings, `IsAudioSSRC` ends up holding for an SSRC if and only if it held at the start or some configuration among the events listed it; bindings never change it |
| PacketHooks.ApplyOutcome | webrtc-jni/src/main/cpp/src/api/AudioInterceptor.cpp:110-123 | no outcome of the Java call changes SSRC, CSRCs, marker or payload buffer address |
| PacketHooks.Intercept | webrtc-jni/src/main/cpp/src/api/AudioInterceptor.cpp:86-124 | a disabled interceptor, a non-audio SSRC, no bound peer, or a missing callback leaves the packet unchanged; SSRC, CSRCs and marker are never changed |
| PacketHooks.OnBeforeSendRtp | webrtc-jni/src/main/cpp/src/api/AudioInterceptor.cpp:86-124 | the send hook passes the packet through when disabled, non-audio, unbound or lacking `interceptRTP`, and never changes SSRC or CSRCs |
| PacketHooks.OnReceivedRtp | webrtc-jni/src/main/cpp/src/api/AudioInterceptor.cpp:126-155 | the receive hook passes the packet through when disabled, non-audio, unbound or lacking `interceptIncomingRTP`, and never changes SSRC or CSRCs |
| PacketHooks.FaultPassesThrough | webrtc-jni/src/main/cpp/src/api/AudioInterceptor.cpp:110-114 | a Java exception during the callback leaves the packet exactly as it was |
| PacketHooks.NullResultDrops | webrtc-jni/src/main/cpp/src/api/AudioInterceptor.cpp:116-120 | a null result empties the payload and keeps PT, sequence number, timestamp, SSRC, CSRCs and marker |
| PacketHooks.ReturnedRecordIsApplied | webrtc-jni/src/main/cpp/src/api/AudioInterceptor.cpp:121-123 | any returned record turns the packet into `toNative(record, packet)`, which keeps the packet's own SSRC and CSRCs; a direct payload also brings the record's narrowed PT, sequence number and timestamp |
| PacketHooks.ReturnedPayloadIsInstalled | webrtc-jni/src/main/cpp/src/api/AudioInterceptor.cpp:121-123 | any returned direct payload becomes the packet's payload bytes, including the packet's own view edited in place by the callback |
| PacketHooks.EchoingCallbackIsNoOp | webrtc-jni/src/main/cpp/src/api/AudioInterceptor.cpp:105-123 | a Java callback that returns the record it was given leaves the packet unchanged |
| PacketHooks.ReceiveFollowsSendPolicy | webrtc-jni/src/main/cpp/src/api/AudioInterceptor.cpp:126-155 | when the receive callback behaves as the send callback, the receive hook's result equals the send hook's: only the callback name differs |
| PacketHooks.UnconfiguredSsrcPassesThrough | webrtc-jni/src/main/cpp/src/api/AudioInterceptor.cpp:86-88 | for an interceptor from the factory, after any configurations and peer bindings in any order or interleaving, both hooks leave unchanged every packet whose SSRC no configuration listed |
| PacketHooks.DropReplaceAndPassThroughExample | webrtc-jni/src/main/cpp/src/api/AudioInterceptor.cpp:86-123 | with SSRC 1001 configured: a null result empties the payload "abc" and keeps sequence number 5; SSRC 2002 passes through untouched; a returned payload "xyz" is installed and SSRC 1001 kept; the packet's own view edited in place to "Abc" and returned leaves "Abc" in the packet's buffer |
| InterceptorRegistry.Add | webrtc/src/main/java/dev/onvoid/webrtc/InterceptorRegistry.java:10-12 | the interceptor is appended at the end and the earlier entries keep their order; duplicates are allowed |
| InterceptorRegistry.RemoveFirst | webrtc/src/main/java/dev/onvoid/webrtc/InterceptorRegistry.java:14-16 | an absent element leaves the list unchanged; a present one is removed exactly once, as a multiset difference |
| InterceptorRegistry.Remove | webrtc/src/main/java/dev/onvoid/webrtc/InterceptorRegistry.java:14-16 | removing an absent interceptor changes nothing; otherwise exactly one occurrence leaves the list |
| InterceptorRegistry.RemoveDeletesFirstOccurrence | webrtc/src/main/java/dev/onvoid/webrtc/InterceptorRegistry.java:14-16 | removal deletes the first occurrence; the entries before and after it stay in order |
| InterceptorRegistry.RemoveUndoesFreshAdd | webrtc/src/main/java/dev/onvoid/webrtc/InterceptorRegistry.java:10-16 | adding an interceptor not yet present and then removing it restores the list |
| InterceptorRegistry.SnapshotIsIndependent | webrtc/src/main/java/dev/onvoid/webrtc/InterceptorRegistry.java:10-20 | a `getInterceptors` snapshot after a later `add` is the old snapshot plus the new entry; after a `remove` it is the old snapshot with the first occurrence of the removed entry cut out, or the old snapshot itself when the entry is absent; a snapshot already taken is a value and does not change |

## Findings

| source | as written | input that shows it | evidently intended | confidence | as-written member | corrected member |
|---|---|---|---|---|---|---|
| webrtc-jni/src/main/cpp/src/api/RTCRtpPacket.cpp:99-108 | the payload of a returned record is read with `GetDirectBufferAddress` and `GetDirectBufferCapacity`. For a heap `ByteBuffer` these yield null and -1, which always differ from the packet's payload, so `SetPayload` receives a null pointer and length 2^64-1. A null payload is undefined one call earlier, because `GetDirectBufferAddress` requires a non-null buffer | the Java callback returns a packet whose payload is `ByteBuffer.wrap(bytes)` | treat a record whose payload is not a direct buffer as no result, so the packet is dropped by truncation | medium; not executed | PacketMarshal.ToNativeAsWritten, PacketMarshal.HeapBufferPayloadReachesNullSetPayload | PacketMarshal.ToNative, PacketMarshal.ToNativeAgreesWithCodeOnDirectBuffers |
| webrtc-jni/src/main/cpp/src/api/RTCRtpPacket.cpp:66 | each CSRC is cast to C++ `long`. Where `long` has 32 bits (Windows), a CSRC of 2^31 or more becomes negative in the Java `List<Long>` | a packet with CSRC 0x80000000 on Windows | widen each CSRC to 64 bits, as for the SSRC on line 62 | medium; not executed | PacketMarshal.WidenCsrcAsWritten, PacketMarshal.CsrcWrapsNegativeOnLLP64 | PacketMarshal.WidenCsrc, PacketMarshal.ToJava |

## Left out

- JNI mechanics are modelled only through the `JavaRuntime` parameter and the global-reference multiset, because they are foreign calls. These are `AttachCurrentThread`, `GetObjectClass`/`GetMethodID`, `CallObjectMethod`, `ExceptionCheck`/`ExceptionDescribe`/`ExceptionClear`, `NewGlobalRef`/`DeleteGlobalRef`, `NewObject` and `NewDirectByteBuffer`.
- The `NoSuchMethodError` that a failed `GetMethodID` leaves pending is not modelled. It is a JNI side effect, and the model only sees that the callback is missing.
- The JNI method signatures and the null sender or receiver argument are left out. Callbacks are identified by name only.
- Mutexes, the unlocked read of `enabled_` and the `synchronizedList` are left out, because the model is sequential. The window between `IsAudioSSRC` releasing the lock and the hook re-taking it is therefore not modelled.
- The thread-local `g_last_interceptor`, `GetLastCreatedInterceptor`, `AudioInterceptorFactory` and `CreateRtpPacketInterceptor` are left out. They are plumbing that hands out objects and state no behaviour of their own.
- Header-extension extraction and serialisation are left out: `toJava` always emits an empty list and `toNative` ignores it.
- RTCP is left out because the native layer never handles it. So are `Interceptor.java`, `RTCRtcpPacket.java`, and the example and logging interceptors.
- Null objects inside a returned record are left out. A null header or a null CSRC element would be a JNI fault before any modelled step. A null payload is undefined already at `GetDirectBufferAddress`; the model folds it into the buffer that is not direct.
- PacketHooks.Intercept: writes that the Java callback makes through the payload view are modelled only through the record it returns. That view is the packet's own memory, so such writes would also change the packet on a fault, and on a returned record carrying another buffer before that buffer is copied over. On a fault the model's packet is the one handed to the hook.
- PacketMarshal.ToNative: after `SetPayload` or `SetPayloadSize(0)` the packet keeps its payload address. Whether WebRTC's buffer reallocates is not part of this model.
- RtpTypes.ToPayloadType: a Java payload type outside 0..127 is reduced to eight bits by the C++ conversion and then kept to its low seven bits. What WebRTC's `SetPayloadType`, which is not part of this model, does with the eighth bit (for example with the marker bit) is not modelled.
- PacketMarshal.ToNative uses the buffer's capacity, not its position or limit, as the source does. A Java callback that only moves position or limit is therefore invisible to the model.
- AudioInterception.Destroy requires that the held handle is a live global reference (`Owns`). So do `SetPeerConnection` and `SetAll`. `SetPeerConnection` re-establishes that state, and `DeleteGlobalRef` on a reference not held is undefined in JNI.
- PacketHooks.Intercept: a returned payload that is not a direct buffer drops the packet, following the corrected `ToNative`. The code as written reaches an undefined `SetPayload` instead (see Findings).
- PacketHooks.OnBeforeSendRtp: built on `Intercept`, so it models the corrected program for a returned payload that is not direct.
- PacketHooks.OnReceivedRtp: built on `Intercept`, so it models the corrected program for a returned payload that is not direct.
- PacketHooks.ApplyOutcome: uses the corrected `ToNative` for a returned payload that is not direct.
- PacketMarshal.ToJava: widens each CSRC without loss, the corrected behaviour. On a platform with a 32-bit `long`, the code as written makes CSRCs of 2^31 or more negative (see Findings).
- InterceptorRegistry: interceptors are compared with Dafny equality, standing for Java's `equals`. This is object identity for interceptors that do not override it.

=== FILE: audio_interception.dfy ===
/**
 The per-connection `AudioInterceptor`: the enable flag, the add-only table
 of audio SSRCs, and the owned JNI global reference to the Java peer
 connection. JNI global references of the whole process are a multiset, so
 that the interceptor's share of them can be accounted for.
 */
module AudioInterception {
  import opened Wrappers
  import opened RtpTypes
  import opened ConnectionRegistry

  datatype AudioInterceptor = AudioInterceptor(enabled: bool, audioSsrcs: set<U32>, javaPc: JRef)

  /** The `webrtc::RtpConfig` fields this layer reads. */
  datatype RtpConfig = RtpConfig(ssrcs: seq<U32>)

  /** The JNI global references an optional object accounts for. */
  function Held(h: JRef): multiset<JObject>
  {
    match h
    case Some(o) => multiset{o}
    case None => multiset{}
  }

  /** The constructor: no SSRC is known and no Java peer is bound yet. */
  function NewAudioInterceptor(enable: bool): (a: AudioInterceptor)
    ensures a.enabled == enable && a.javaPc == None
    ensures forall s: U32 :: !IsAudioSsrc(a, s)
  {
    AudioInterceptor(enable, {}, None)
  }

  /** `IsAudioSSRC`: whether the SSRC was listed by some configuration so far. */
  predicate IsAudioSsrc(a: AudioInterceptor, ssrc: U32)
  {
    ssrc in a.audioSsrcs
  }

  /** The interceptor's handle, if any, is a live global reference. */
  predicate Owns(a: AudioInterceptor, globalRefs: multiset<JObject>)
  {
    Held(a.javaPc) <= globalRefs
  }

  datatype Bound = Bound(interceptor: AudioInterceptor, globalRefs: multiset<JObject>)

  /**
   `SetPeerConnection`: delete the global reference held so far, if any, then
   hold a new global reference to `javaPc` (none when `javaPc` is null).
   */
  function SetPeerConnection(a: AudioInterceptor, globalRefs: multiset<JObject>, javaPc: JRef): (r: Bound)
    requires Owns(a, globalRefs)
    ensures r.interceptor.javaPc == javaPc
    ensures r.interceptor.enabled == a.enabled && r.interceptor.audioSsrcs == a.audioSsrcs
    ensures Owns(r.interceptor, r.globalRefs)
    ensures r.globalRefs - Held(javaPc) == globalRefs - Held(a.javaPc)
  {
    var released := globalRefs - Held(a.javaPc);
    Bound(a.(javaPc := javaPc), released + Held(javaPc))
  }

  /**
   After any number of `SetPeerConnection` calls the interceptor owns exactly
   one reference, to the last object bound, and everyone else's references
   are as they were.
   */
  lemma {:induction false} SetPeerConnectionKeepsOneHandle(a: AudioInterceptor, others: multiset<JObject>, binds: seq<JRef>)
    requires |binds| > 0
    ensures var r := SetAll(a, others + Held(a.javaPc), binds);
      r.interceptor.javaPc == binds[|binds| - 1] && r.globalRefs == others + Held(binds[|binds| - 1])
    decreases |binds|
  {
    var r := SetPeerConnection(a, others + Held(a.javaPc), binds[0]);
    assert r.globalRefs == others + Held(binds[0]);
    if |binds| > 1 {
      SetPeerConnectionKeepsOneHandle(r.interceptor, others, binds[1..]);
    }
  }

  function SetAll(a: AudioInterceptor, globalRefs: multiset<JObject>, binds: seq<JRef>): Bound
    requires Owns(a, globalRefs)
    decreases |binds|
  {
    if |binds| == 0 then Bound(a, globalRefs)
    else
      var r := SetPeerConnection(a, globalRefs, binds[0]);
      SetAll(r.interceptor, r.globalRefs, binds[1..])
  }

  /** Binding peers touches only the handle: the SSRC table and the flag stay. */
  lemma {:induction false} SetAllKeepsClassification(a: AudioInterceptor, refs: multiset<JObject>, binds: seq<JRef>)
    requires Owns(a, refs)
    ensures SetAll(a, refs, binds).interceptor.audioSsrcs == a.audioSsrcs
    ensures SetAll(a, refs, binds).interceptor.enabled == a.enabled
    decreases |binds|
  {
    if |binds| > 0 {
      var r := SetPeerConnection(a, refs, binds[0]);
      SetAllKeepsClassification(r.interceptor, r.globalRefs, binds[1..]);
    }
  }

  /** `~AudioInterceptor`: delete the held global reference, if any. */
  function Destroy(a: AudioInterceptor, globalRefs: multiset<JObject>): (r: multiset<JObject>)
    requires Owns(a, globalRefs)
    ensures r + Held(a.javaPc) == globalRefs
  {
    globalRefs - Held(a.javaPc)
  }

  /** The classification a configuration produces, as a reference definition. */
  function Classified(a: AudioInterceptor, config: RtpConfig): AudioInterceptor
  {
    a.(audioSsrcs := a.audioSsrcs + set i | 0 <= i < |config.ssrcs| :: config.ssrcs[i])
  }

  /**
   `OnRtpConfig`: mark every SSRC of the configuration as audio. Nothing is
   ever removed, and nothing but the table changes.
   */
  method OnRtpConfig(a: AudioInterceptor, config: RtpConfig) returns (r: AudioInterceptor)
    ensures r.enabled == a.enabled && r.javaPc == a.javaPc
    ensures forall s: U32 :: IsAudioSsrc(r, s) <==> IsAudioSsrc(a, s) || s in config.ssrcs
    ensures r == Classified(a, config)
  {
    var table := a.audioSsrcs;
    for i := 0 to |config.ssrcs|
      invariant forall s :: s in table <==> s in a.audioSsrcs || s in config.ssrcs[..i]
    {
      table := table + {config.ssrcs[i]};
    }
    assert config.ssrcs[..|config.ssrcs|] == config.ssrcs;
    r := a.(audioSsrcs := table);
    assert r.audioSsrcs == Classified(a, config).audioSsrcs by {
      forall s | s in config.ssrcs
        ensures s in Classified(a, config).audioSsrcs
      {
        var i :| 0 <= i < |config.ssrcs| && config.ssrcs[i] == s;
      }
    }
  }

  /** Configurations delivered one after another (renegotiation). */
  function ClassifiedAll(a: AudioInterceptor, configs: seq<RtpConfig>): (r: AudioInterceptor)
    ensures r.enabled == a.enabled && r.javaPc == a.javaPc
    decreases |configs|
  {
    if |configs| == 0 then a else ClassifiedAll(Classified(a, configs[0]), configs[1..])
  }

  /**
   After a series of configurations an SSRC is audio exactly when it was
   audio before or some configuration listed it: classifications are never
   lost, and nothing else becomes audio.
   */
  lemma {:induction false} ClassifiedAllIsUnion(a: AudioInterceptor, configs: seq<RtpConfig>, s: U32)
    ensures IsAudioSsrc(ClassifiedAll(a, configs), s) <==>
      IsAudioSsrc(a, s) || exists k :: 0 <= k < |configs| && s in configs[k].ssrcs
    ensures ClassifiedAll(a, configs).enabled == a.enabled && ClassifiedAll(a, configs).javaPc == a.javaPc
    decreases |configs|
  {
    if |configs| > 0 {
      var a' := Classified(a, configs[0]);
      assert IsAudioSsrc(a', s) <==> IsAudioSsrc(a, s) || s in configs[0].ssrcs by {
        if s in configs[0].ssrcs {
          var i :| 0 <= i < |configs[0].ssrcs| && configs[0].ssrcs[i] == s;
        }
      }
      ClassifiedAllIsUnion(a', configs[1..], s);
      if exists k :: 0 <= k < |configs| && s in configs[k].ssrcs {
        var k :| 0 <= k < |configs| && s in configs[k].ssrcs;
        if k > 0 {
          assert configs[1..][k - 1] == configs[k];
        }
      }
      if exists k :: 0 <= k < |configs[1..]| && s in configs[1..][k].ssrcs {
        var k :| 0 <= k < |configs[1..]| && s in configs[1..][k].ssrcs;
        assert configs[k + 1] == configs[1..][k];
      }
    }
  }

  /**
   For an interceptor fresh from the factory, `IsAudioSSRC` holds exactly for
   the SSRCs some delivered configuration listed.
   */
  lemma AudioIffConfigured(enable: bool, configs: seq<RtpConfig>, s: U32)
    ensures IsAudioSsrc(ClassifiedAll(NewAudioInterceptor(enable), configs), s) <==>
      exists k :: 0 <= k < |configs| && s in configs[k].ssrcs
  {
    ClassifiedAllIsUnion(NewAudioInterceptor(enable), configs, s);
  }

  /** One event in an interceptor's life: a (re)negotiated configuration, or a peer binding. */
  datatype Event = Configure(config: RtpConfig) | Bind(peer: JRef)

  function Step(b: Bound, e: Event): (r: Bound)
    requires Owns(b.interceptor, b.globalRefs)
    ensures Owns(r.interceptor, r.globalRefs)
    ensures r.interceptor.enabled == b.interceptor.enabled
  {
    match e
    case Configure(c) => Bound(Classified(b.interceptor, c), b.globalRefs)
    case Bind(h) => SetPeerConnection(b.interceptor, b.globalRefs, h)
  }

  /**
   Any interleaving of configurations and bindings, in the order they reach
   the interceptor. The interceptor never stops owning its handle, and the
   enable flag never changes.
   */
  function Run(b: Bound, events: seq<Event>): (r: Bound)
    requires Owns(b.interceptor, b.globalRefs)
    ensures Owns(r.interceptor, r.globalRefs)
    ensures r.interceptor.enabled == b.interceptor.enabled
    decreases |events|
  {
    if |events| == 0 then b else Run(Step(b, events[0]), events[1..])
  }

  /**
   Whatever the interleaving, an SSRC is audio at the end exactly when it was
   audio at the start or some configuration among the events listed it;
   bindings never change the classification.
   */
  lemma {:induction false} RunClassifies(b: Bound, events: seq<Event>, s: U32)
    requires Owns(b.interceptor, b.globalRefs)
    ensures IsAudioSsrc(Run(b, events).interceptor, s) <==>
      IsAudioSsrc(b.interceptor, s) || exists k :: 0 <= k < |events| && events[k].Configure? && s in events[k].config.ssrcs
    decreases |events|
  {
    if |events| > 0 {
      var e := events[0];
      var b' := Step(b, e);
      assert IsAudioSsrc(b'.interceptor, s) <==> IsAudioSsrc(b.interceptor, s) || (e.Configure? && s in e.config.ssrcs) by {
        if e.Configure? && s in e.config.ssrcs {
          var i :| 0 <= i < |e.config.ssrcs| && e.config.ssrcs[i] == s;
        }
      }
      RunClassifies(b', events[1..], s);
      if exists k :: 0 <= k < |events| && events[k].Configure? && s in events[k].config.ssrcs {
        var k :| 0 <= k < |events| && events[k].Configure? && s in events[k].config.ssrcs;
        if k > 0 {
          assert events[1..][k - 1] == events[k];
        }
      }
      if exists k :: 0 <= k < |events[1..]| && events[1..][k].Configure? && s in events[1..][k].config.ssrcs {
        var k :| 0 <= k < |events[1..]| && events[1..][k].Configure? && s in events[1..][k].config.ssrcs;
        assert events[k + 1] == events[1..][k];
      }
    }
  }
}

=== FILE: connection_registry.dfy ===
/**
 The process-wide table from a native peer connection to its Java
 `RTCPeerConnection` (`g_pc_map` with `RegisterPeerConnection`,
 `UnregisterPeerConnection` and `GetJavaPeerConnection`).
 */
module ConnectionRegistry {
  import opened Wrappers

  /** The address of a native peer connection, used only as a key. */
  datatype NativePc = NativePc(addr: nat)

  /** A Java object reference; `None` is `nullptr`. */
  datatype JObject = JObject(id: nat)

  type JRef = Option<JObject>

  datatype PcRegistry = PcRegistry(entries: map<NativePc, JRef>)

  const EmptyRegistry := PcRegistry(map[])

  /** `GetJavaPeerConnection`: the stored reference, or null when the key is absent. */
  function Lookup(r: PcRegistry, pc: NativePc): JRef
  {
    if pc in r.entries then r.entries[pc] else None
  }

  /** `RegisterPeerConnection`: store or overwrite the mapping of `pc`. */
  function Register(r: PcRegistry, pc: NativePc, javaPc: JRef): (r': PcRegistry)
    ensures Lookup(r', pc) == javaPc
    ensures forall other :: other != pc ==> Lookup(r', other) == Lookup(r, other)
    ensures r'.entries.Keys == r.entries.Keys + {pc}
  {
    PcRegistry(r.entries[pc := javaPc])
  }

  /** `UnregisterPeerConnection`: erase the mapping of `pc`, if any. */
  function Unregister(r: PcRegistry, pc: NativePc): (r': PcRegistry)
    ensures Lookup(r', pc) == None
    ensures forall other :: other != pc ==> Lookup(r', other) == Lookup(r, other)
    ensures r'.entries.Keys == r.entries.Keys - {pc}
  {
    PcRegistry(r.entries - {pc})
  }

  /** Registering a key twice keeps only the later value. */
  lemma RegisterOverwrites(r: PcRegistry, pc: NativePc, first: JRef, second: JRef)
    ensures Register(Register(r, pc, first), pc, second) == Register(r, pc, second)
  {
  }

  /** Unregistering a key that was just registered fresh restores the table. */
  lemma UnregisterUndoesFreshRegister(r: PcRegistry, pc: NativePc, javaPc: JRef)
    requires pc !in r.entries
    ensures Unregister(Register(r, pc, javaPc), pc) == r
  {
    assert Unregister(Register(r, pc, javaPc), pc).entries == r.entries;
  }

  /** The operations the connection lifecycle performs on the table. */
  datatype Op = RegisterOp(pc: NativePc, javaPc: JRef) | UnregisterOp(pc: NativePc)

  function Apply(r: PcRegistry, ops: seq<Op>): PcRegistry
    decreases |ops|
  {
    if |ops| == 0 then r
    else
      var r' := match ops[0]
        case RegisterOp(pc, javaPc) => Register(r, pc, javaPc)
        case UnregisterOp(pc) => Unregister(r, pc);
      Apply(r', ops[1..])
  }

  /** A key that no operation mentions is looked up exactly as before them. */
  lemma {:induction false} UntouchedKeyKeepsLookup(r: PcRegistry, ops: seq<Op>, pc: NativePc)
    requires forall i :: 0 <= i < |ops| ==> ops[i].pc != pc
    ensures Lookup(Apply(r, ops), pc) == Lookup(r, pc)
    decreases |ops|
  {
    if |ops| > 0 {
      var r' := match ops[0]
        case RegisterOp(k, javaPc) => Register(r, k, javaPc)
        case UnregisterOp(k) => Unregister(r, k);
      assert Lookup(r', pc) == Lookup(r, pc);
      UntouchedKeyKeepsLookup(r', ops[1..], pc);
    }
  }

  /** A key that no operation registers is looked up as null, if it was null before them. */
  lemma {:induction false} NeverRegisteredIsNull(r: PcRegistry, ops: seq<Op>, pc: NativePc)
    requires Lookup(r, pc) == None
    requires forall i :: 0 <= i < |ops| && ops[i].RegisterOp? ==> ops[i].pc != pc
    ensures Lookup(Apply(r, ops), pc) == None
    decreases |ops|
  {
    if |ops| > 0 {
      var r' := match ops[0]
        case RegisterOp(k, javaPc) => Register(r, k, javaPc)
        case UnregisterOp(k) => Unregister(r, k);
      assert Lookup(r', pc) == None;
      NeverRegisteredIsNull(r', ops[1..], pc);
    }
  }

  /**
   Starting from the empty table at process start, a key that no operation
   registers is looked up as null.
   */
  lemma UnregisteredKeyIsNull(ops: seq<Op>, pc: NativePc)
    requires forall i :: 0 <= i < |ops| && ops[i].RegisterOp? ==> ops[i].pc != pc
    ensures Lookup(Apply(EmptyRegistry, ops), pc) == None
  {
    NeverRegisteredIsNull(EmptyRegistry, ops, pc);
  }
}

=== FILE: interceptor_registry.dfy ===
/**
 The Java `InterceptorRegistry`: an ordered list of interceptors with
 `add`, `remove` and `getInterceptors`. Interceptors are compared with Dafny
 equality, standing for Java's `equals`.
 */
module InterceptorRegistry {

  datatype Registry<T> = Registry(interceptors: seq<T>)

  /** `add`: append at the end; duplicates are allowed. */
  function Add<T>(r: Registry<T>, x: T): (r': Registry<T>)
    ensures |r'.interceptors| == |r.interceptors| + 1
    ensures r'.interceptors[..|r.interceptors|] == r.interceptors
    ensures r'.interceptors[|r.interceptors|] == x
  {
    Registry(r.interceptors + [x])
  }

  /** The position of the first occurrence of `x`. */
  function FirstIndex<T(==)>(s: seq<T>, x: T): (i: nat)
    requires x in s
    ensures i < |s| && s[i] == x
    ensures x !in s[..i]
  {
    if s[0] == x then 0 else 1 + FirstIndex(s[1..], x)
  }

  /** `List.remove(Object)` on the underlying list. */
  function RemoveFirst<T(==)>(s: seq<T>, x: T): (r: seq<T>)
    ensures x !in s ==> r == s
    ensures x in s ==> |r| == |s| - 1
    ensures multiset(r) == multiset(s) - multiset{x}
  {
    if |s| == 0 then s
    else
      assert s == [s[0]] + s[1..];
      if s[0] == x then s[1..] else [s[0]] + RemoveFirst(s[1..], x)
  }

  /** `remove`: delete the first occurrence of `x`, if there is one. */
  function Remove<T(==)>(r: Registry<T>, x: T): (r': Registry<T>)
    ensures x !in r.interceptors ==> r' == r
    ensures multiset(r'.interceptors) == multiset(r.interceptors) - multiset{x}
  {
    Registry(RemoveFirst(r.interceptors, x))
  }

  /** `getInterceptors`: an unmodifiable copy of the current contents. */
  function GetInterceptors<T>(r: Registry<T>): seq<T>
  {
    r.interceptors
  }

  /**
   `remove` deletes exactly the first occurrence: the entries before and
   after it stay, in their order.
   */
  lemma {:induction false} RemoveDeletesFirstOccurrence<T>(s: seq<T>, x: T)
    requires x in s
    ensures RemoveFirst(s, x) == s[..FirstIndex(s, x)] + s[FirstIndex(s, x) + 1..]
  {
    if s[0] != x {
      var tail := s[1..];
      var i := FirstIndex(tail, x);
      assert FirstIndex(s, x) == i + 1;
      assert RemoveFirst(s, x) == [s[0]] + RemoveFirst(tail, x);
      RemoveDeletesFirstOccurrence(tail, x);
      ConsOfSplit(s, i);
    }
  }

  lemma ConsOfSplit<T>(s: seq<T>, i: nat)
    requires i + 1 < |s|
    ensures [s[0]] + (s[1..][..i] + s[1..][i + 1..]) == s[..i + 1] + s[i + 2..]
  {
    assert [s[0]] + s[1..][..i] == s[..i + 1];
  }

  /** Removing an interceptor that was just added, and not there before, restores the list. */
  lemma {:induction false} RemoveUndoesFreshAdd<T>(r: Registry<T>, x: T)
    requires x !in r.interceptors
    ensures Remove(Add(r, x), x) == r
  {
    RemoveFirstOfAppended(r.interceptors, x);
  }

  lemma {:induction false} RemoveFirstOfAppended<T>(s: seq<T>, x: T)
    requires x !in s
    ensures RemoveFirst(s + [x], x) == s
  {
    if |s| > 0 {
      assert (s + [x])[1..] == s[1..] + [x];
      RemoveFirstOfAppended(s[1..], x);
      assert [s[0]] + s[1..] == s;
    }
  }

  /**
   A snapshot is the contents at the time it was taken: later `add` and
   `remove` calls produce new contents and leave it as it was. The next
   snapshot is the old one with the entry appended, or with the first
   occurrence of the removed entry cut out.
   */
  lemma SnapshotIsIndependent<T>(r: Registry<T>, x: T, y: T)
    ensures GetInterceptors(Add(r, x)) == GetInterceptors(r) + [x]
    ensures y !in GetInterceptors(r) ==> GetInterceptors(Remove(r, y)) == GetInterceptors(r)
    ensures y in GetInterceptors(r) ==>
      var i := FirstIndex(r.interceptors, y);
      GetInterceptors(Remove(r, y)) == GetInterceptors(r)[..i] + GetInterceptors(r)[i + 1..]
  {
    if y in r.interceptors {
      RemoveDeletesFirstOccurrence(r.interceptors, y);
    }
  }
}

=== FILE: packet_hooks.dfy ===
/**
 The per-packet hooks `RtpPacketInterceptor::OnBeforeSendRtp` and
 `RtpPacketInterceptor::OnReceivedRtp`. The Java side is a parameter: whether
 the peer connection's class has the callback method, and what calling it
 with a record yields.
 */
module PacketHooks {
  import opened Wrappers
  import opened RtpTypes
  import opened PacketMarshal
  import opened ConnectionRegistry
  import opened AudioInterception

  /** Java callback invoked before a packet is sent. */
  const SendMethod := "interceptRTP"

  /** Java callback invoked after a packet is received. */
  const ReceiveMethod := "interceptIncomingRTP"

  /** What a call into Java yields: a pending exception, null, or a record. */
  datatype CallbackOutcome = Fault | NullResult | Returned(record: RtpRecord)

  /** The Java peer connections' behaviour, as far as the hooks observe it. */
  datatype JavaRuntime = JavaRuntime(
    hasMethod: (JObject, string) -> bool,
    invoke: (JObject, string, RtpRecord) -> CallbackOutcome)

  /** The gates before any Java call: enabled, audio SSRC, and a bound peer. */
  predicate Dispatches(a: AudioInterceptor, p: RtpPacket)
  {
    a.enabled && IsAudioSsrc(a, p.ssrc) && a.javaPc.Some?
  }

  /**
   The result policy: a fault passes the packet through, null drops it by
   truncation, a record is applied with `toNative`.
   */
  function ApplyOutcome(p: RtpPacket, o: CallbackOutcome): (r: RtpPacket)
    ensures r.ssrc == p.ssrc && r.csrcs == p.csrcs && r.marker == p.marker
    ensures r.payload.address == p.payload.address
  {
    match o
    case Fault => p
    case NullResult => TruncatePayload(p)
    case Returned(rec) => ToNative(rec, p)
  }

  /** One hook, parameterised by the name of the Java callback it dispatches to. */
  function Intercept(a: AudioInterceptor, p: RtpPacket, jvm: JavaRuntime, callback: string): (r: RtpPacket)
    ensures !Dispatches(a, p) ==> r == p
    ensures Dispatches(a, p) && !jvm.hasMethod(a.javaPc.value, callback) ==> r == p
    ensures r.ssrc == p.ssrc && r.csrcs == p.csrcs && r.marker == p.marker
  {
    if !a.enabled then p
    else if !IsAudioSsrc(a, p.ssrc) then p
    else
      match a.javaPc
      case None => p
      case Some(pc) =>
        if !jvm.hasMethod(pc, callback) then p
        else ApplyOutcome(p, jvm.invoke(pc, callback, ToJava(p)))
  }

  /** `OnBeforeSendRtp`. */
  function OnBeforeSendRtp(a: AudioInterceptor, p: RtpPacket, jvm: JavaRuntime): (r: RtpPacket)
    ensures !a.enabled || !IsAudioSsrc(a, p.ssrc) || a.javaPc.None? ==> r == p
    ensures a.javaPc.Some? && !jvm.hasMethod(a.javaPc.value, SendMethod) ==> r == p
    ensures r.ssrc == p.ssrc && r.csrcs == p.csrcs
  {
    Intercept(a, p, jvm, SendMethod)
  }

  /** `OnReceivedRtp`. */
  function OnReceivedRtp(a: AudioInterceptor, p: RtpPacket, jvm: JavaRuntime): (r: RtpPacket)
    ensures !a.enabled || !IsAudioSsrc(a, p.ssrc) || a.javaPc.None? ==> r == p
    ensures a.javaPc.Some? && !jvm.hasMethod(a.javaPc.value, ReceiveMethod) ==> r == p
    ensures r.ssrc == p.ssrc && r.csrcs == p.csrcs
  {
    Intercept(a, p, jvm, ReceiveMethod)
  }

  /** A fault raised by the Java callback leaves the packet exactly as it was. */
  lemma FaultPassesThrough(a: AudioInterceptor, p: RtpPacket, jvm: JavaRuntime, callback: string)
    requires Dispatches(a, p) && jvm.hasMethod(a.javaPc.value, callback)
    requires jvm.invoke(a.javaPc.value, callback, ToJava(p)) == Fault
    ensures Intercept(a, p, jvm, callback) == p
  {
  }

  /**
   A null result drops the packet: its payload becomes empty and every header
   field the transport relies on is kept.
   */
  lemma NullResultDrops(a: AudioInterceptor, p: RtpPacket, jvm: JavaRuntime, callback: string)
    requires Dispatches(a, p) && jvm.hasMethod(a.javaPc.value, callback)
    requires jvm.invoke(a.javaPc.value, callback, ToJava(p)) == NullResult
    ensures var r := Intercept(a, p, jvm, callback);
      && |r.payload.bytes| == 0
      && r.payloadType == p.payloadType && r.sequenceNumber == p.sequenceNumber
      && r.timestamp == p.timestamp && r.ssrc == p.ssrc && r.csrcs == p.csrcs
      && r.marker == p.marker
  {
  }

  /**
   A returned record is applied with `toNative`, whatever it holds: the
   packet keeps its own SSRC and CSRCs whatever the record says, and a direct
   payload brings the record's payload type, sequence number and timestamp.
   */
  lemma ReturnedRecordIsApplied(a: AudioInterceptor, p: RtpPacket, jvm: JavaRuntime, callback: string, rec: RtpRecord)
    requires Dispatches(a, p) && jvm.hasMethod(a.javaPc.value, callback)
    requires jvm.invoke(a.javaPc.value, callback, ToJava(p)) == Returned(rec)
    ensures var r := Intercept(a, p, jvm, callback);
      && r == ToNative(rec, p)
      && r.ssrc == p.ssrc && r.csrcs == p.csrcs
    ensures rec.payload.DirectBuffer? ==>
      var r := Intercept(a, p, jvm, callback);
      && r.payloadType == ToPayloadType(rec.header.payloadType)
      && r.sequenceNumber == ToU16(rec.header.sequenceNumber)
      && r.timestamp == ToU32(rec.header.timestamp)
  {
  }

  /**
   A returned direct payload becomes the packet's payload, whether
   `toNative` copies it or the callback edited the packet's own view.
   */
  lemma ReturnedPayloadIsInstalled(a: AudioInterceptor, p: RtpPacket, jvm: JavaRuntime, callback: string, rec: RtpRecord)
    requires Dispatches(a, p) && jvm.hasMethod(a.javaPc.value, callback)
    requires jvm.invoke(a.javaPc.value, callback, ToJava(p)) == Returned(rec)
    requires rec.payload.DirectBuffer?
    ensures Intercept(a, p, jvm, callback).payload.bytes == rec.payload.contents
  {
    ToNativeInstallsRecordPayload(rec, p);
  }

  /** A callback that hands back the record it was given leaves the packet unchanged. */
  lemma EchoingCallbackIsNoOp(a: AudioInterceptor, p: RtpPacket, jvm: JavaRuntime, callback: string)
    requires forall pc: JObject, rec: RtpRecord :: jvm.invoke(pc, callback, rec) == Returned(rec)
    ensures Intercept(a, p, jvm, callback) == p
  {
    if Dispatches(a, p) && jvm.hasMethod(a.javaPc.value, callback) {
      ToNativeOfToJavaIsIdentity(p);
    }
  }

  /**
   The receive hook applies the send hook's policy: with a Java side whose
   receive callback behaves like another's send callback, both hooks agree.
   */
  lemma ReceiveFollowsSendPolicy(a: AudioInterceptor, p: RtpPacket, send: JavaRuntime, receive: JavaRuntime)
    requires forall pc: JObject :: receive.hasMethod(pc, ReceiveMethod) == send.hasMethod(pc, SendMethod)
    requires forall pc: JObject, rec: RtpRecord :: receive.invoke(pc, ReceiveMethod, rec) == send.invoke(pc, SendMethod, rec)
    ensures OnReceivedRtp(a, p, receive) == OnBeforeSendRtp(a, p, send)
  {
  }

  /**
   An interceptor built by the factory, then given any configurations and
   peer bindings in any interleaving, passes through, in both directions,
   every packet whose SSRC no configuration listed.
   */
  lemma UnconfiguredSsrcPassesThrough(
    enable: bool, refs: multiset<JObject>, events: seq<Event>, p: RtpPacket, jvm: JavaRuntime)
    requires forall k :: 0 <= k < |events| && events[k].Configure? ==> p.ssrc !in events[k].config.ssrcs
    ensures var a := Run(Bound(NewAudioInterceptor(enable), refs), events).interceptor;
      OnBeforeSendRtp(a, p, jvm) == p && OnReceivedRtp(a, p, jvm) == p
  {
    RunClassifies(Bound(NewAudioInterceptor(enable), refs), events, p.ssrc);
  }

  /**
   A worked case: SSRC 1001 configured, a bound peer, a packet with
   sequence number 5 and payload "abc". The callback drops it, replaces the
   payload with "xyz", or edits its own view in place to "Abc".
   */
  lemma DropReplaceAndPassThroughExample()
    ensures
      var a := SetPeerConnection(Classified(NewAudioInterceptor(true), RtpConfig([1001])), multiset{}, Some(JObject(7))).interceptor;
      var p := RtpPacket(false, 111, 5, 960, 1001, [], Payload(BufferId(1), [0x61, 0x62, 0x63]));
      var dropping := JavaRuntime((pc, m) => true, (pc, m, rec) => NullResult);
      var xyz := DirectBuffer(BufferId(2), [0x78, 0x79, 0x7A]);
      var replacing := JavaRuntime((pc, m) => true, (pc, m, rec: RtpRecord) => Returned(rec.(payload := xyz)));
      var editing := JavaRuntime((pc, m) => true, (pc, m, rec: RtpRecord) =>
        Returned(rec.(payload := DirectBuffer(BufferId(1), [0x41, 0x62, 0x63]))));
      && OnBeforeSendRtp(a, p, dropping).payload.bytes == []
      && OnBeforeSendRtp(a, p, dropping).sequenceNumber == 5
      && OnBeforeSendRtp(a, p.(ssrc := 2002), dropping) == p.(ssrc := 2002)
      && OnBeforeSendRtp(a, p, replacing).payload.bytes == [0x78, 0x79, 0x7A]
      && OnBeforeSendRtp(a, p, replacing).ssrc == 1001
      && OnBeforeSendRtp(a, p, replacing).sequenceNumber == 5
      && OnBeforeSendRtp(a, p, editing).payload == Payload(BufferId(1), [0x41, 0x62, 0x63])
  {
    var config := RtpConfig([1001]);
    assert config.ssrcs[0] == 1001;
    var a := SetPeerConnection(Classified(NewAudioInterceptor(true), config), multiset{}, Some(JObject(7))).interceptor;
    assert 1001 in a.audioSsrcs;
    assert 2002 !in a.audioSsrcs;
  }
}

=== FILE: packet_marshal.dfy ===
/**
 Conversion between the native RTP packet and the Java `RTCRtpPacket`
 record (`RTCRtpPacket::toJava`), and application of a record returned from
 Java back onto the native packet (`RTCRtpPacket::toNative`).
 */
module PacketMarshal {
  import opened Wrappers
  import opened RtpTypes

  /** The Java `RTCRtpHeader`: Java-typed copies of the fixed header fields. */
  datatype RtpHeader = RtpHeader(
    payloadType: JInt,
    sequenceNumber: JInt,
    timestamp: JLong,
    ssrc: JLong,
    csrcs: seq<JLong>)

  /**
   A `java.nio.ByteBuffer` as JNI sees it. A direct buffer exposes an address
   and a capacity; any other buffer, and a null reference, exposes neither.
   */
  datatype JavaBuffer = DirectBuffer(address: BufferId, contents: seq<Byte>) | NotDirect

  /** An `RTCRtpHeaderExtensionParameters` object, kept opaque. */
  datatype HeaderExtension = HeaderExtension(ref: nat)

  /** The Java `RTCRtpPacket`. */
  datatype RtpRecord = RtpRecord(header: RtpHeader, payload: JavaBuffer, extensions: seq<HeaderExtension>)

  /** `GetDirectBufferAddress`: the buffer's address, or null when it is not direct. */
  function DirectAddress(b: JavaBuffer): Option<BufferId>
  {
    match b
    case DirectBuffer(a, _) => Some(a)
    case NotDirect => None
  }

  /** `GetDirectBufferCapacity`: the buffer's capacity, or -1 when it is not direct. */
  function DirectCapacity(b: JavaBuffer): int
  {
    match b
    case DirectBuffer(_, bytes) => |bytes|
    case NotDirect => -1
  }

  /** A CSRC widened to a Java `long`: every 32-bit unsigned value fits. */
  function WidenCsrc(c: U32): (r: JLong)
    ensures 0 <= r < 0x1_0000_0000 && ToU32(r) == c
  {
    c
  }

  /** `RTCRtpPacket::toJava`. */
  function ToJava(p: RtpPacket): (r: RtpRecord)
    ensures r.header.payloadType == p.payloadType
    ensures r.header.sequenceNumber == p.sequenceNumber
    ensures r.header.timestamp == p.timestamp
    ensures r.header.ssrc == p.ssrc
    ensures |r.header.csrcs| == |p.csrcs|
    ensures forall i :: 0 <= i < |p.csrcs| ==> r.header.csrcs[i] == p.csrcs[i]
    ensures r.extensions == []
    ensures DirectAddress(r.payload) == Some(p.payload.address)
    ensures r.payload.contents == p.payload.bytes
  {
    var csrcs := seq(|p.csrcs|, i requires 0 <= i < |p.csrcs| => WidenCsrc(p.csrcs[i]));
    RtpRecord(
      RtpHeader(p.payloadType, p.sequenceNumber, p.timestamp, p.ssrc, csrcs),
      DirectBuffer(p.payload.address, p.payload.bytes),
      [])
  }

  /**
   The header writes of `toNative`: payload type, sequence number and
   timestamp, each narrowed to its native width. SSRC and CSRCs are not written.
   */
  function WriteHeader(h: RtpHeader, p: RtpPacket): (r: RtpPacket)
    ensures r.payloadType == ToPayloadType(h.payloadType)
    ensures r.sequenceNumber == ToU16(h.sequenceNumber)
    ensures r.timestamp == ToU32(h.timestamp)
    ensures r.(payloadType := p.payloadType, sequenceNumber := p.sequenceNumber, timestamp := p.timestamp) == p
  {
    p.(payloadType := ToPayloadType(h.payloadType),
       sequenceNumber := ToU16(h.sequenceNumber),
       timestamp := ToU32(h.timestamp))
  }

  /** Whether `toNative` must copy the record's payload into the packet. */
  predicate PayloadDiffers(b: JavaBuffer, p: RtpPacket)
  {
    DirectAddress(b) != Some(p.payload.address) || DirectCapacity(b) != |p.payload.bytes|
  }

  /** The undefined step `toNative` can take. */
  datatype NativeFault = SetPayloadFromNullBuffer

  /**
   `RTCRtpPacket::toNative` as written: the header is written, then the
   payload is replaced whenever address or capacity differ. A buffer that is
   not direct yields a null address and a capacity of -1, which always differ,
   and `SetPayload` is then handed a null pointer and a length of 2^64 - 1.
   When address and capacity match, the buffer is the packet's own memory
   (the view `toJava` made), so the packet already carries whatever the
   callback wrote into it.
   */
  function ToNativeAsWritten(rec: RtpRecord, p: RtpPacket): (r: Result<RtpPacket, NativeFault>)
    ensures r.Failure? <==> rec.payload.NotDirect?
  {
    var q := WriteHeader(rec.header, p);
    if PayloadDiffers(rec.payload, p) then
      match rec.payload
      case DirectBuffer(_, bytes) => Success(q.(payload := Payload(q.payload.address, bytes)))
      case NotDirect => Failure(SetPayloadFromNullBuffer)
    else
      Success(q.(payload := Payload(q.payload.address, rec.payload.contents)))
  }

  /**
   `RTCRtpPacket::toNative` with a record whose payload is not a direct
   buffer treated as a missing result: the packet is dropped by truncation.
   Otherwise it is exactly the code as written.
   */
  function ToNative(rec: RtpRecord, p: RtpPacket): (r: RtpPacket)
    ensures r.ssrc == p.ssrc && r.csrcs == p.csrcs && r.marker == p.marker
    ensures r.payload.address == p.payload.address
    ensures rec.payload.NotDirect? ==> r == TruncatePayload(p)
    ensures rec.payload.DirectBuffer? ==>
      && r.payloadType == ToPayloadType(rec.header.payloadType)
      && r.sequenceNumber == ToU16(rec.header.sequenceNumber)
      && r.timestamp == ToU32(rec.header.timestamp)
    ensures rec.payload.DirectBuffer? ==> r.payload.bytes == rec.payload.contents
  {
    match rec.payload
    case NotDirect => TruncatePayload(p)
    case DirectBuffer(_, bytes) =>
      // Copied when the buffer differs, already in place when it is the
      // packet's own view: either way the packet ends up with its bytes.
      var q := WriteHeader(rec.header, p);
      q.(payload := Payload(q.payload.address, bytes))
  }

  /** On every record the code can handle, the corrected `toNative` is the code as written. */
  lemma ToNativeAgreesWithCodeOnDirectBuffers(rec: RtpRecord, p: RtpPacket)
    requires rec.payload.DirectBuffer?
    ensures ToNativeAsWritten(rec, p) == Success(ToNative(rec, p))
  {
  }

  /** A record returned with a heap buffer as payload reaches `SetPayload(nullptr, -1)`. */
  lemma HeapBufferPayloadReachesNullSetPayload(p: RtpPacket)
    ensures ToNativeAsWritten(ToJava(p).(payload := NotDirect), p) == Failure(SetPayloadFromNullBuffer)
  {
  }

  /**
   Whichever branch `toNative` takes, a direct payload ends up as the
   packet's payload bytes: copied when it is another buffer, already there
   when it is the packet's own memory, edited in place or not.
   */
  lemma ToNativeInstallsRecordPayload(rec: RtpRecord, p: RtpPacket)
    requires rec.payload.DirectBuffer?
    ensures ToNative(rec, p).payload.bytes == rec.payload.contents
    ensures !PayloadDiffers(rec.payload, p) ==> ToNative(rec, p).payload.address == p.payload.address
  {
  }

  /** Round trip: applying the unmodified record of a packet leaves the packet as it was. */
  lemma ToNativeOfToJavaIsIdentity(p: RtpPacket)
    ensures ToNative(ToJava(p), p) == p
  {
  }

  /**
   The Java header of a packet carries the packet's fixed header fields
   without loss: writing it back reproduces them, whatever the payload.
   */
  lemma ToJavaHeaderIsLossless(p: RtpPacket, q: RtpPacket)
    ensures WriteHeader(ToJava(p).header, q).payloadType == p.payloadType
    ensures WriteHeader(ToJava(p).header, q).sequenceNumber == p.sequenceNumber
    ensures WriteHeader(ToJava(p).header, q).timestamp == p.timestamp
  {
  }

  /** However the Java side rewrites the header, SSRC and CSRCs of the packet stay. */
  lemma ToNativeIgnoresSsrcAndCsrcs(rec: RtpRecord, ssrc: JLong, csrcs: seq<JLong>, p: RtpPacket)
    ensures ToNative(rec.(header := rec.header.(ssrc := ssrc, csrcs := csrcs)), p) == ToNative(rec, p)
  {
  }

  /** Applying the same record twice has the effect of applying it once. */
  lemma ToNativeIsIdempotent(rec: RtpRecord, p: RtpPacket)
    ensures ToNative(rec, ToNative(rec, p)) == ToNative(rec, p)
  {
  }

  /** How a platform's C++ `long` is sized. */
  datatype DataModel =
    | LP64   // 64-bit `long` (Linux, macOS)
    | LLP64  // 32-bit `long` (Windows)

  /**
   `static_cast<long>(csrc)` as written: on a platform whose `long` has 32
   bits, a CSRC of 2^31 or more wraps to a negative value.
   */
  function WidenCsrcAsWritten(c: U32, m: DataModel): (r: JLong)
    ensures m == LP64 ==> r == WidenCsrc(c)
    ensures (r - c) % 0x1_0000_0000 == 0
    ensures m == LLP64 ==> -0x8000_0000 <= r < 0x8000_0000
    ensures m == LLP64 ==> (r < 0 <==> c >= 0x8000_0000)
  {
    if m == LLP64 && c >= 0x8000_0000 then c - 0x1_0000_0000 else c
  }

  /** On Windows, the CSRC 0x80000000 reaches Java as -2147483648. */
  lemma CsrcWrapsNegativeOnLLP64()
    ensures WidenCsrcAsWritten(0x8000_0000, LLP64) == -0x8000_0000
    ensures WidenCsrc(0x8000_0000) == 0x8000_0000
  {
  }
}

=== FILE: rtp_types.dfy ===
/**
 The native RTP packet as the interception layer sees it, with every header
 field bounded by its width in the fixed header of section 5.1 of RFC 3550,
 and the integer ranges of the Java fields it is copied into.
 */
module RtpTypes {

  type Byte = x: int | 0 <= x < 0x100

  /** The 7-bit PT field. */
  type PayloadType = x: int | 0 <= x < 0x80

  type U16 = x: int | 0 <= x < 0x1_0000

  type U32 = x: int | 0 <= x < 0x1_0000_0000

  /** The CC field has four bits, so a packet names at most 15 contributing sources. */
  const MaxCsrcCount: nat := 15

  type CsrcList = s: seq<U32> | |s| <= MaxCsrcCount

  /** Java `int`. */
  type JInt = x: int | -0x8000_0000 <= x < 0x8000_0000

  /** Java `long`. */
  type JLong = x: int | -0x8000_0000_0000_0000 <= x < 0x8000_0000_0000_0000

  /** The address of a payload's first byte, kept abstract: only equality matters. */
  datatype BufferId = BufferId(addr: nat)

  datatype Payload = Payload(address: BufferId, bytes: seq<Byte>)

  /**
   The mutable `webrtc::RtpPacket` handed to the hooks, as a value. The
   marker bit stands for every part of the packet the layer never touches.
   */
  datatype RtpPacket = RtpPacket(
    marker: bool,
    payloadType: PayloadType,
    sequenceNumber: U16,
    timestamp: U32,
    ssrc: U32,
    csrcs: CsrcList,
    payload: Payload)

  /** `SetPayloadSize(0)`: the sanctioned way to drop a packet in place. */
  function TruncatePayload(p: RtpPacket): (r: RtpPacket)
    ensures |r.payload.bytes| == 0
    ensures r.payload.address == p.payload.address
    ensures r.(payload := p.payload) == p
  {
    p.(payload := Payload(p.payload.address, []))
  }

  /** C++ conversion of an integer to `uint16_t`: reduction modulo 2^16. */
  function ToU16(v: int): (r: U16)
    ensures (v - r) % 0x1_0000 == 0
    ensures 0 <= v < 0x1_0000 ==> r == v
  {
    v % 0x1_0000
  }

  /** C++ conversion of an integer to `uint32_t`: reduction modulo 2^32. */
  function ToU32(v: int): (r: U32)
    ensures (v - r) % 0x1_0000_0000 == 0
    ensures 0 <= v < 0x1_0000_0000 ==> r == v
  {
    v % 0x1_0000_0000
  }

  /**
   A Java `int` passed to `SetPayloadType(uint8_t)`: first reduced to eight
   bits by the C++ conversion, of which the 7-bit PT field keeps the low seven.
   */
  function ToPayloadType(v: int): (r: PayloadType)
    ensures r == v % 0x80
    ensures 0 <= v < 0x80 ==> r == v
  {
    var octet := v % 0x100;
    LowBitsOfLowOctet(v);
    octet % 0x80
  }

  /** The low seven bits of the low eight bits are the low seven bits. */
  lemma LowBitsOfLowOctet(v: int)
    ensures (v % 0x100) % 0x80 == v % 0x80
  {
    var q, o := v / 0x100, v % 0x100;
    var q', r := o / 0x80, o % 0x80;
    assert v == 0x80 * (2 * q + q') + r;
  }
}

=== FILE: wrappers.dfy ===
/** Failure-carrying datatypes shared by the model. */
module Wrappers {

  /** `None` stands for a Java or C++ null. */
  datatype Option<+T> = None | Some(value: T)

  /** Either a value or the reason none could be produced. */
  datatype Result<+R, +E> = Success(value: R) | Failure(error: E)
}
